=== FILE: README.md ===
# Crowdfunding chaincode and enrollment helpers, modelled in Dafny

This project models two parts of a Hyperledger Fabric crowdfunding application and proves properties of the model.

**The chaincode** (`artifacts/src/github.com/crowd_cc/go/test.go`) keeps projects, contributions and users in one key-value world state.
- The world state is `Ledger.WorldState`, a `map<string, Value>`. A `Value` is a project, a contribution or a user record.
- The four writers are `CreateProject`, `Contribute`, `DistributeRewards` and `RegisterUser` in module `Crowdfunding`. Each one reads the committed state. It returns either the state after its `PutState` calls or the error the Go code returns.
- `Crowdfunding.Submit` models the peer's commit rule: a transaction that returned an error commits nothing.
- The two readers are in module `Queries`. `GetContributionsByUser` and `GetContributionsForCampaign` run a CouchDB selector over the whole namespace. They decode every matching document as a `Contribution`.

Marshalling a record and unmarshalling it into the same record type is the identity. Reading a document of one type into another record type follows `encoding/json`: fields with matching names are copied, unknown fields are ignored, and missing fields keep Go's zero value (`Ledger.AsProject`, `Ledger.AsContribution`). That is why `Contribute` and `DistributeRewards` succeed on a key that holds a user (`CrowdfundingLemmas.UserKeyReadsAsEmptyProject`).

**The helpers** (`api-2.0/app/helper.js`) come in three parts:
- `OrgConfig`: the organisation lookups `getWalletPath`, `getOrgMSP`, `getAffiliation`, `getCaInfo` and `getCaUrl`.
- `Enrollment`: `enrollAdmin` and `getRegisteredUser`, working over an abstract wallet (a map from name to X.509 identity).
- `Login`: the login check `isUserRegistered`.

External results are inputs:
- The certificate authority's replies form a `CaScript`.
- The database's answer to the password query is a `DbAnswer`.
- The organisation's connection profile is a `ConnectionProfile`.

Each helper returns what its promise settles to: a value, or a rejection with its cause. It also returns the wallet afterwards and, in order, the CA calls, wallet writes and database access it made (`Effect`). A database access is recorded whether the connection or the query fails. Wallet reads, the connection-profile read and opening the wallet directory are not recorded.

Some outcomes of the helpers follow from how the JavaScript is written:
- For an unknown organisation, `getCCP` reads a file at a null path, so the promise of `getRegisteredUser` is rejected (`Rejected(NoConnectionProfile)`).
- Only the `register` call is inside a try block. A CA failure in the user's `enroll` call rejects the promise (`Rejected(CaFailure(..))`).
- `enrollAdmin` swallows a failed admin bootstrap. `getRegisteredUser` then reads `.type` of the missing admin identity, which throws (`Rejected(NoAdminIdentity)`, `Enrollment.SwallowedAdminFailureRejects`), so no register call is made.
- `isUserRegistered` compares the stored password with the candidate using plain `===`.

The state database is CouchDB, which the chaincode's rich queries need. `PutState` refuses two kinds of key (`Crowdfunding.CheckKey`):
- Fabric's chaincode stub refuses the empty key ("key must not be an empty string").
- The CouchDB state database refuses a key that begins with "_".

So `CreateProject` and `RegisterUser` fail for such an id. `Contribute` writes the contribution key first, and that key begins with "_" exactly when the project id is refused, so it fails on a project stored under such an id. `DistributeRewards` fails when it writes the closed project back. See `CrowdfundingLemmas.InvalidKeyRefused` and `CrowdfundingLemmas.InvalidKeyNeverStored`.

## Model

| member | source | states |
|---|---|---|
| Crowdfunding.ContributionKey | artifacts/src/github.com/crowd_cc/go/test.go:86 | the contribution key extends the project id as a prefix, so it never equals the project id; it is refused by `PutState` exactly when the project id would be |
| Crowdfunding.CheckKey | artifacts/src/github.com/crowd_cc/go/test.go:62 | `PutState` accepts a key iff it is non-empty and does not begin with "_"; the empty key is refused by the stub, any other refused key by CouchDB |
| Crowdfunding.CreateProject | artifacts/src/github.com/crowd_cc/go/test.go:46-63 | fails exactly for an id that `PutState` refuses (empty, or beginning with "_"), with that refusal; otherwise overwrites whatever is under the id, adds no other key, and stores a project with the given title, descriptions and goal, total 0 and not closed |
| Crowdfunding.Contribute | artifacts/src/github.com/crowd_cc/go/test.go:66-103 | fails exactly when nothing is stored under the project id, with `ProjectNotFound(id)`, or when that id is refused by `PutState`, in which case the first write, of the contribution key, is refused; on success the project's total grows by exactly the amount, every other field stays as it was, the contribution record lands under the contribution key, and no other key changes |
| Crowdfunding.DistributeRewards | artifacts/src/github.com/crowd_cc/go/test.go:106-143 | checks in order: missing project, then total below goal, then already closed, then the write-back, which fails exactly for a refused id and wraps the refusal, then opening the contribution scan, which fails exactly for an id containing U+0000 or U+10FFFF; a successful call only sets `isClosed` on that project and changes no other key |
| Crowdfunding.RegisterUser | artifacts/src/github.com/crowd_cc/go/test.go:163-175 | fails exactly for an id that `PutState` refuses (empty, or beginning with "_"), with that refusal; otherwise stores the user under its id in the shared namespace and changes no other key |
| Crowdfunding.Submit | artifacts/src/github.com/crowd_cc/go/test.go:92-102 | a transaction that returns an error leaves the world state unchanged and reports that error; one that succeeds commits exactly the state it computed and is reported as success |
| CrowdfundingLemmas.ContributionKeyInjective | artifacts/src/github.com/crowd_cc/go/test.go:86 | within one project, two contributors share a contribution key iff they are the same contributor |
| CrowdfundingLemmas.RepeatContributionOverwritesRecord | artifacts/src/github.com/crowd_cc/go/test.go:78-92 | when one contributor gives twice, both amounts reach the total but only the second record survives under the key |
| CrowdfundingLemmas.ContributionsAccumulate | artifacts/src/github.com/crowd_cc/go/test.go:72-102 | after any run of contributions to an existing project, the total has grown by their sum, the rest of the project record is unchanged, and the last contributor's key holds the last contribution |
| CrowdfundingLemmas.ContributeIgnoresClosure | artifacts/src/github.com/crowd_cc/go/test.go:66-103 | a closed project still accepts a contribution of any sign and stays closed |
| CrowdfundingLemmas.DistributeRewardsTwiceFails | artifacts/src/github.com/crowd_cc/go/test.go:121-135 | a second DistributeRewards after a successful one fails with "project is already closed" |
| CrowdfundingLemmas.ClosedUnderfundedReportsGoal | artifacts/src/github.com/crowd_cc/go/test.go:121-127 | the goal check precedes the closed check: a closed project pushed below its goal by a negative contribution reports "goal amount not reached" |
| CrowdfundingLemmas.FundedLifecycle | artifacts/src/github.com/crowd_cc/go/test.go:46-160 | create, fund to the goal, close: the project is closed at its goal; a later contribution still raises the total, and closing again is refused with the state unchanged |
| CrowdfundingLemmas.RegisterUserReplacesProject | artifacts/src/github.com/crowd_cc/go/test.go:163-175 | registering a user under a project's id replaces the project |
| CrowdfundingLemmas.UserKeyReadsAsEmptyProject | artifacts/src/github.com/crowd_cc/go/test.go:107-129 | a user document decodes as an all-zero project, so Contribute and DistributeRewards succeed on a user's key and overwrite the user |
| CrowdfundingLemmas.InvalidKeyRefused | artifacts/src/github.com/crowd_cc/go/test.go:62 | for an id `PutState` refuses, CreateProject and RegisterUser fail with that refusal and every transaction on the id commits nothing |
| CrowdfundingLemmas.InvalidKeyNeverStored | artifacts/src/github.com/crowd_cc/go/test.go:62-174 | starting from a state whose keys are all accepted by `PutState`, no run of transactions stores a refused key |
| CrowdfundingLemmas.UnscannableStaysOpenStep | artifacts/src/github.com/crowd_cc/go/test.go:140-143 | for an id the composite-key scan refuses, no single transaction closes what is stored under it: DistributeRewards fails and commits nothing, and every other write leaves it open |
| CrowdfundingLemmas.UnscannableProjectNeverCloses | artifacts/src/github.com/crowd_cc/go/test.go:130-143 | no run of transactions ever closes a project whose id contains U+0000 or U+10FFFF, because the scan after the closing write fails and the write is discarded |
| CrowdfundingLemmas.ContributionKeyCollision | artifacts/src/github.com/crowd_cc/go/test.go:86-92 | contributor "b" of project "a" writes key "a_b", overwriting a project stored under "a_b" |
| Ledger.AsProject | artifacts/src/github.com/crowd_cc/go/test.go:73 | the decode at lines 73 and 116: a project document decodes to itself; a contribution decodes to a project that keeps only the project id; a user decodes to the all-zero project |
| Ledger.AsContribution | artifacts/src/github.com/crowd_cc/go/test.go:194 | the decode at lines 194 and 221: a contribution document decodes to itself; a project decodes to (its id, "", 0); a user decodes to all zeros; both decoders read the same project id |
| Queries.SelectMembers | artifacts/src/github.com/crowd_cc/go/test.go:187-199 | a record is in the query result iff some listed key holds a selected document that decodes to it |
| Queries.SelectCount | artifacts/src/github.com/crowd_cc/go/test.go:187-199 | over a listing without repeats, the result has one element per selected key |
| Queries.SelectMultiplicity | artifacts/src/github.com/crowd_cc/go/test.go:187-199 | over a listing without repeats, each record occurs in the result once per listed key whose selected document decodes to it |
| Queries.SelectOrderIrrelevant | artifacts/src/github.com/crowd_cc/go/test.go:180-201 | as a multiset, the result does not depend on the order in which the database yields the keys |
| Queries.RunQuery | artifacts/src/github.com/crowd_cc/go/test.go:186-201 | the iterator loop (decode each document, append it) computes the selected records in the database's order |
| Queries.GetContributionsByUser | artifacts/src/github.com/crowd_cc/go/test.go:178-202 | returns exactly the stored contribution records whose contributor is the user; as a multiset, each record once per key holding it |
| Queries.GetContributionsForCampaignAsWritten | artifacts/src/github.com/crowd_cc/go/test.go:205-229 | returns the stored contributions to the campaign plus a record (campaign, "", 0) whenever a project document carries the campaign id; as a multiset, each stored record once per key holding it, plus (campaign, "", 0) once per such project document |
| Queries.GetContributionsForCampaign | artifacts/src/github.com/crowd_cc/go/test.go:205-229 | returns exactly the stored contribution records for the campaign; as a multiset, each record once per key holding it |
| Queries.CampaignQueryReturnsProjectDocument | artifacts/src/github.com/crowd_cc/go/test.go:206 | with one project and no contribution, the as-written selector returns the phantom record and the corrected one returns nothing |
| OrgConfig.ParseOrgNames | api-2.0/app/helper.js:32-34 | the chains recognise exactly "Org1", "Org2" and "Org3" |
| OrgConfig.WalletPath | api-2.0/app/helper.js:30-36 | a wallet directory exists iff the organisation is one of the three, and it is the lower-cased name followed by "-wallet" |
| OrgConfig.OrgMSP | api-2.0/app/helper.js:223-230 | an MSP id exists iff the organisation is one of the three, and it is the name followed by "MSP" |
| OrgConfig.Affiliation | api-2.0/app/helper.js:39-43 | always one of the two configured affiliations; "org1.department1" iff the organisation is "Org1" |
| OrgConfig.OrgLookupsInjective | api-2.0/app/helper.js:30-36 | distinct known organisations get distinct wallets and distinct MSP ids |
| OrgConfig.AffiliationFallsBackToOrg2 | api-2.0/app/helper.js:39-43 | Org3 and every unknown organisation get Org2's affiliation |
| OrgConfig.CaKey | api-2.0/app/helper.js:23-25 | a CA profile key exists iff the organisation is known, and it is "ca." + the lower-cased name + ".example.com" |
| OrgConfig.CaInfo | api-2.0/app/helper.js:215-221 | null iff the organisation is unknown; the profile's entry iff the profile has the organisation's CA key; undefined otherwise |
| OrgConfig.CaUrl | api-2.0/app/helper.js:21-28 | null iff the organisation is unknown; throws exactly when getCaInfo yields undefined; otherwise the url of the entry getCaInfo returns |
| OrgConfig.CaUrlAgreesWithCaInfo | api-2.0/app/helper.js:21-28 | getCaUrl yields a URL iff getCaInfo yields an entry |
| Enrollment.EnrollAdmin | api-2.0/app/helper.js:232-269 | a no-op when "admin" is stored; its calls are exactly none (admin stored or CA entry unusable), the admin enroll with id "admin" and secret "adminpw" alone (CA refusal, so nothing is written), or that enroll followed by the admin's wallet write (CA grant); otherwise only "admin" can be added; the admin exists afterwards iff it did before or the CA entry was usable and the CA granted; the CA is called iff the admin is absent and the entry usable |
| Enrollment.GetRegisteredUser | api-2.0/app/helper.js:45-109 | the outcome in every case, for a profile whose CA url parses: rejects for an unknown organisation or a missing CA entry, with no calls; a stored user ends the request with no calls; for a new user, enrollAdmin runs first (a no-op when the admin is stored), and with no admin afterwards the request rejects with the wallet unchanged; otherwise the calls are enrollAdmin's followed by register, enroll and put: a register failure returns the CA's bare message, a refused enroll rejects with the CA's message and adds no user, and a success adds the user's X.509 identity |
| Enrollment.StoredIdentitiesKept | api-2.0/app/helper.js:45-109 | stored identities are never replaced; only the user and the admin can be added; the admin is enrolled only when neither it nor the user was stored |
| Enrollment.FailuresStoreNoUser | api-2.0/app/helper.js:67-93 | a register failure happens exactly when a new user reaches register with an admin and the CA refuses, and it carries the CA's message and stores no user; a rejection for the missing admin follows no call but the admin enroll |
| Enrollment.FreshEnrollmentStoresUser | api-2.0/app/helper.js:79-108 | a success for a new user means both CA calls were granted; the user is stored with MSP id org+"MSP" and type "X.509", the wallet gains exactly the user and the admin, and the user's wallet write is the last call |
| Enrollment.EnrollWithStoredAdmin | api-2.0/app/helper.js:67-108 | with the admin already stored there is no bootstrap call: the outcome, wallet and calls for each CA answer start with the register call |
| Enrollment.EnrollmentIdempotent | api-2.0/app/helper.js:56-64 | enrolling a user again after a success repeats the success with no CA call, no wallet write and an unchanged wallet, whatever the CA would answer |
| Enrollment.EnrolledMspMatchesOrgMSP | api-2.0/app/helper.js:98 | the MSP id written for a newly enrolled user is the one getOrgMSP reports |
| Enrollment.FirstEnrollmentSequence | api-2.0/app/helper.js:67-108 | with no admin and every CA request granted, the calls are admin enroll (as "admin" with secret "adminpw"), put admin, register, enroll, put user, and the wallet gains exactly those two identities |
| Enrollment.SwallowedAdminFailureRejects | api-2.0/app/helper.js:67-77 | a CA refusal during admin bootstrap leaves the wallet unchanged and the request rejects reading the missing admin identity |
| Login.IsUserRegistered | api-2.0/app/helper.js:175-212 | true iff the organisation is known, the wallet holds the user and the first password row equals the candidate exactly; no database access without a wallet identity; a connection or query error reads as false; an unknown organisation rejects |
| Login.NoIdentityIgnoresDatabase | api-2.0/app/helper.js:182-211 | without a wallet identity the answer is false whatever the database holds |
| Login.LoginImpliesEnrolled | api-2.0/app/helper.js:182-199 | a user who passes the login check is already enrolled: getRegisteredUser short-circuits for them |
| Login.EnrollmentAloneDoesNotLogIn | api-2.0/app/helper.js:195-199 | after enrollment, login still depends on the password row: no row gives false and a matching row gives true |

## Findings

| source | as written | input that shows it | evidently intended | confidence | as-written member | corrected member |
|---|---|---|---|---|---|---|
| artifacts/src/github.com/crowd_cc/go/test.go:206 | the selector `{"projectId": id}` also matches the Project document, which carries the same `projectId` field | after CreateProject("p1", …) with no contributions, GetContributionsForCampaign("p1") returns one record with projectId "p1", contributorId "" and amount 0 (`Queries.CampaignQueryReturnsProjectDocument`) | only contribution documents are returned | medium, not executed (assumes the CouchDB state database that rich queries need) | Queries.GetContributionsForCampaignAsWritten | Queries.GetContributionsForCampaign |

The corrected query adds a condition that `contributorId` exists, which only contribution documents have.

## Left out

- Amounts are `real`. The `float64` rounding of `+=` and `<` (test.go lines 22-23, 30, 78, 121) is not modelled.
- JSON marshal failures and `GetState`/`PutState` transport errors are not modelled. Two key checks are not modelled: a key starting with U+0000 and a key that is not valid UTF-8. The text of a `PutState` refusal is not modelled either, only its cause (`KeyError`). The chaincode's `main` and its logging are also left out.
- The composite-key scan in DistributeRewards (test.go lines 140-157) only decodes and writes nothing. No transaction writes into the "Contribution" composite namespace it scans, so the loop is modelled as doing nothing. Opening the scan is modelled: it fails for an id containing U+0000 or U+10FFFF (`ContributionScanFailed`), and the project then stays open (`CrowdfundingLemmas.UnscannableProjectNeverCloses`). The other ways the range query can fail are transport errors and are not modelled.
- Query strings are built by unescaped interpolation (test.go lines 179, 206). The model treats the selector value as an exact-match string, so quote injection is not modelled. Iterator errors are not modelled either. Rich queries exist only on CouchDB.
- Queries.GetContributionsByUser, Queries.GetContributionsForCampaign, Queries.GetContributionsForCampaignAsWritten: these assume the state database lists each stored key exactly once (`Enumerates`). `Select` and its lemmas cover any listing.
- The `Reward` type (test.go lines 33-38) is never used by any transaction.
- `getCCP` reads a connection-profile file. The profile's certificate-authority table is an input, and only the unknown-organisation failure (a null path) is modelled. The `process.cwd()` prefix of wallet paths is dropped.
- Wallet, CA, file and MySQL I/O are replaced by inputs: the wallet's content, the `CaScript` replies and the `DbAnswer`. The following are assumed to succeed: `provider.getUserContext`, the wallet store's `get`/`put`, and the database connection once opened.
- Enrollment.GetRegisteredUser, Enrollment.EnrollAdmin: the profile's CA url is assumed to parse. `new FabricCAServices(url)` (helper.js lines 50 and 237) throws for a url the CA client cannot parse, before the wallet is read. getRegisteredUser would then reject even for a stored user, and enrollAdmin would swallow the throw before any enroll call. URL parsing belongs to the CA client library, which is not part of this model.
- The `isJson` parameter of `getRegisteredUser` is unused by the code. It is not modelled.
- The SDK gateway plumbing is left out: `makeContribution`, `getContributionsByUser` and `getContributionsForCampaign` in helper.js (lines 111-173), plus invoke.js and qscc.js. They are thin wrappers around `fabric-network` connect/submit/evaluate.
- `registerAndGetSecret` (helper.js lines 271-351) is not modelled, because it cannot work as written. It uses an undefined `bcrypt`. It inserts a hashed password into table `usuarios`, while `isUserRegistered` reads table `users` and compares plaintext with `===`, so a user it registers could never log in.
- Module-level defects of helper.js are not modelled, because the model covers each function's logic and not module loading. Line 192 is a syntax error, and `module.exports` names the undefined `registerAndGerSecret` (line 360).
- Concurrent enrollment requests racing on one wallet are not modelled.

=== FILE: crowdfunding.dfy ===
/**
 * The four state-changing transactions of the crowdfunding chaincode
 * (artifacts/src/github.com/crowd_cc/go/test.go) and the peer's commit rule.
 *
 * Each transaction reads the committed world state and returns either the
 * world state after its `PutState` calls or the error it returns. Fabric
 * commits nothing of a transaction that returned an error; `Submit` models that.
 * The state database is CouchDB, which the chaincode's rich queries require.
 */
module Crowdfunding {
  import opened Results
  import opened Ledger

  /** Why a `PutState` call is refused. */
  datatype KeyError =
    | EmptyKey                          // the stub: "key must not be an empty string"
    | LeadingUnderscore(key: string)    // CouchDB: a key cannot begin with "_"

  /** The errors the transactions return. */
  datatype ChaincodeError =
    | ProjectNotFound(id: string)         // "Failed to find project: <id>"
    | ProjectDoesNotExist(id: string)     // "project does not exist: <id>"
    | GoalNotReached                      // "goal amount not reached"
    | AlreadyClosed                       // "project is already closed"
    | PutRefused(cause: KeyError)         // a `PutState` error returned as it is
    | ProjectUpdateFailed(cause: KeyError)  // "failed to update project: <cause>"
    | ContributionScanFailed(id: string)  // "failed to get contributions: <cause>"

  /** The check a key passes before `PutState` accepts it; None when the key is accepted. */
  function CheckKey(key: string): (r: Option<KeyError>)
    ensures r.None? <==> ValidKey(key)
    ensures r == Some(EmptyKey) <==> key == ""
    ensures r.Some? && key != "" ==> r.value == LeadingUnderscore(key)
  {
    if key == "" then Some(EmptyKey)
    else if key[0] == '_' then Some(LeadingUnderscore(key))
    else None
  }

  /**
   * An attribute the shim accepts in a composite key: it contains neither
   * U+0000 nor U+10FFFF, the two code points composite keys use as delimiters.
   */
  predicate CompositeAttributeOk(a: string) {
    forall i :: 0 <= i < |a| ==> a[i] != '\0' && a[i] != '\U{10FFFF}'
  }

  /** The key a contribution is stored under: `fmt.Sprintf("%s_%s", projectId, contributorId)`. */
  function ContributionKey(projectId: string, contributorId: string): (k: string)
    ensures |k| > |projectId| && k[..|projectId|] == projectId
    ensures k != projectId
    ensures ValidKey(k) <==> ValidKey(projectId)
  {
    projectId + "_" + contributorId
  }

  /** The project record a transaction reads back from `projectId`, which must be present. */
  function ReadProject(s: WorldState, projectId: string): Project
    requires projectId in s
  {
    AsProject(s[projectId])
  }

  /**
   * CreateProject: a fresh, open, empty project under `projectId`, with no
   * existence check. Only a refused key makes it fail.
   */
  function CreateProject(s: WorldState, projectId: string, title: string, description: string,
                         shortDescription: string, goalAmount: real): (r: Result<WorldState, ChaincodeError>)
    ensures r.Err? <==> !ValidKey(projectId)
    ensures r.Err? ==> r.error == PutRefused(CheckKey(projectId).value)
    ensures r.Ok? ==>
      && r.value.Keys == s.Keys + {projectId}
      && (forall k :: k in s && k != projectId ==> r.value[k] == s[k])
      && r.value[projectId].ProjectV?
      && var p := ReadProject(r.value, projectId);
      && p.projectId == projectId && p.title == title && p.description == description
      && p.shortDescription == shortDescription && p.goalAmount == goalAmount
      && p.currentAmount == 0.0 && !p.isClosed
  {
    match CheckKey(projectId)
    case Some(e) => Err(PutRefused(e))
    case None =>
      var project := Project(projectId, title, description, shortDescription, goalAmount, 0.0, false);
      Ok(s[projectId := ProjectV(project)])
  }

  /**
   * Contribute: adds `amount` to the project's running total and records the
   * contribution under `ContributionKey(projectId, contributorId)`. Neither a
   * closed project nor the sign of `amount` is checked. The contribution is
   * written first, and its key is refused exactly when the project id would be.
   */
  function Contribute(s: WorldState, projectId: string, contributorId: string, amount: real)
    : (r: Result<WorldState, ChaincodeError>)
    ensures r.Err? <==> projectId !in s || !ValidKey(projectId)
    ensures projectId !in s ==> r == Err(ProjectNotFound(projectId))
    ensures projectId in s && !ValidKey(projectId) ==>
      r == Err(PutRefused(LeadingUnderscore(ContributionKey(projectId, contributorId))))
    ensures r.Ok? ==>
      var key := ContributionKey(projectId, contributorId);
      && r.value.Keys == s.Keys + {key}
      && (forall k :: k in s && k != projectId && k != key ==> r.value[k] == s[k])
      && r.value[key] == ContributionV(Contribution(projectId, contributorId, amount))
      && r.value[projectId].ProjectV?
      && var before, after := ReadProject(s, projectId), ReadProject(r.value, projectId);
      && after.currentAmount == before.currentAmount + amount
      && after == before.(currentAmount := after.currentAmount)
  {
    if projectId !in s then
      Err(ProjectNotFound(projectId))
    else
      var project := ReadProject(s, projectId);
      var updated := project.(currentAmount := project.currentAmount + amount);
      var contribution := Contribution(projectId, contributorId, amount);
      var key := ContributionKey(projectId, contributorId);
      match CheckKey(key)
      case Some(e) => Err(PutRefused(e))
      case None =>
        var s' := s[key := ContributionV(contribution)];
        match CheckKey(projectId)
        case Some(e) => Err(PutRefused(e))
        case None => Ok(s'[projectId := ProjectV(updated)])
  }

  /**
   * DistributeRewards: closes a funded project. The guards run in this order:
   * missing project, goal not reached, already closed; then the write of the
   * closed project, whose refusal is wrapped. The scan of the "Contribution"
   * composite-key range that follows writes nothing, but opening it fails for
   * an id the shim refuses as a composite-key attribute, and then the
   * transaction returns that error and the closing write is not committed.
   */
  function DistributeRewards(s: WorldState, projectId: string): (r: Result<WorldState, ChaincodeError>)
    ensures projectId !in s ==> r == Err(ProjectDoesNotExist(projectId))
    ensures projectId in s ==>
      var p := ReadProject(s, projectId);
      && (p.currentAmount < p.goalAmount ==> r == Err(GoalNotReached))
      && (p.currentAmount >= p.goalAmount && p.isClosed ==> r == Err(AlreadyClosed))
      && (p.currentAmount >= p.goalAmount && !p.isClosed && !ValidKey(projectId) ==>
            r == Err(ProjectUpdateFailed(CheckKey(projectId).value)))
      && var written := p.currentAmount >= p.goalAmount && !p.isClosed && ValidKey(projectId);
      && (written && !CompositeAttributeOk(projectId) ==> r == Err(ContributionScanFailed(projectId)))
      && (written && CompositeAttributeOk(projectId) ==> r.Ok?)
    ensures r.Ok? ==>
      && r.value.Keys == s.Keys
      && (forall k :: k in s && k != projectId ==> r.value[k] == s[k])
      && r.value[projectId].ProjectV?
      && ReadProject(r.value, projectId) == ReadProject(s, projectId).(isClosed := true)
  {
    if projectId !in s then
      Err(ProjectDoesNotExist(projectId))
    else
      var project := ReadProject(s, projectId);
      if project.currentAmount < project.goalAmount then
        Err(GoalNotReached)
      else if project.isClosed then
        Err(AlreadyClosed)
      else match CheckKey(projectId)
        case Some(e) => Err(ProjectUpdateFailed(e))
        case None =>
          if !CompositeAttributeOk(projectId) then Err(ContributionScanFailed(projectId))
          else Ok(s[projectId := ProjectV(project.(isClosed := true))])
  }

  /** RegisterUser: a user record under `userId`, in the same namespace as projects. */
  function RegisterUser(s: WorldState, userId: string, role: string): (r: Result<WorldState, ChaincodeError>)
    ensures r.Err? <==> !ValidKey(userId)
    ensures r.Err? ==> r.error == PutRefused(CheckKey(userId).value)
    ensures r.Ok? ==>
      && r.value.Keys == s.Keys + {userId}
      && (forall k :: k in s && k != userId ==> r.value[k] == s[k])
      && r.value[userId] == UserV(User(userId, role))
  {
    match CheckKey(userId)
    case Some(e) => Err(PutRefused(e))
    case None => Ok(s[userId := UserV(User(userId, role))])
  }

  /** A transaction as the gateway submits it: the function name and its arguments. */
  datatype Tx =
    | CreateProjectTx(projectId: string, title: string, description: string,
                      shortDescription: string, goalAmount: real)
    | ContributeTx(projectId: string, contributorId: string, amount: real)
    | DistributeRewardsTx(projectId: string)
    | RegisterUserTx(userId: string, role: string)

  function Execute(s: WorldState, tx: Tx): Result<WorldState, ChaincodeError> {
    match tx
    case CreateProjectTx(id, t, d, sd, g) => CreateProject(s, id, t, d, sd, g)
    case ContributeTx(id, c, a) => Contribute(s, id, c, a)
    case DistributeRewardsTx(id) => DistributeRewards(s, id)
    case RegisterUserTx(id, role) => RegisterUser(s, id, role)
  }

  /** The world state after the peer validates a transaction, and what the client is told. */
  datatype Committed = Committed(state: WorldState, response: Result<(), ChaincodeError>)

  /** A transaction that returned an error leaves the world state as it was. */
  function Submit(s: WorldState, tx: Tx): (c: Committed)
    ensures c.response.Err? ==> c.state == s
    ensures c.response.Ok? <==> Execute(s, tx).Ok?
    ensures Execute(s, tx).Ok? ==> c == Committed(Execute(s, tx).value, Ok(()))
    ensures Execute(s, tx).Err? ==> c == Committed(s, Err(Execute(s, tx).error))
  {
    match Execute(s, tx)
    case Ok(s') => Committed(s', Ok(()))
    case Err(e) => Committed(s, Err(e))
  }

  /** Transactions committed one after another. */
  function Run(s: WorldState, txs: seq<Tx>): WorldState
    decreases |txs|
  {
    if txs == [] then s else Run(Submit(s, txs[0]).state, txs[1..])
  }
}

=== FILE: crowdfunding_lemmas.dfy ===
/**
 * Properties that relate several crowdfunding transactions to one another.
 */
module CrowdfundingLemmas {
  import opened Results
  import opened Ledger
  import opened Crowdfunding

  /** One call of Contribute: who gives and how much. */
  datatype Gift = Gift(contributorId: string, amount: real)

  function ContributeTxs(projectId: string, gifts: seq<Gift>): seq<Tx>
    decreases |gifts|
  {
    if gifts == [] then []
    else [ContributeTx(projectId, gifts[0].contributorId, gifts[0].amount)]
         + ContributeTxs(projectId, gifts[1..])
  }

  function Total(gifts: seq<Gift>): real
    decreases |gifts|
  {
    if gifts == [] then 0.0 else gifts[0].amount + Total(gifts[1..])
  }

  /** Two contributors never share a contribution key within one project. */
  lemma ContributionKeyInjective(projectId: string, c1: string, c2: string)
    ensures ContributionKey(projectId, c1) == ContributionKey(projectId, c2) <==> c1 == c2
  {
    if ContributionKey(projectId, c1) == ContributionKey(projectId, c2) {
      var n := |projectId| + 1;
      assert c1 == ContributionKey(projectId, c1)[n..];
      assert c2 == ContributionKey(projectId, c2)[n..];
    }
  }

  /**
   * The same contributor giving twice to one project: both amounts reach the
   * running total, but the second record overwrites the first.
   */
  lemma RepeatContributionOverwritesRecord(s: WorldState, p: string, c: string, a1: real, a2: real)
    requires p in s && ValidKey(p)
    ensures Contribute(s, p, c, a1).Ok?
    ensures var s1 := Contribute(s, p, c, a1).value;
      && Contribute(s1, p, c, a2).Ok?
      && var s2 := Contribute(s1, p, c, a2).value;
      && ReadProject(s2, p).currentAmount == ReadProject(s, p).currentAmount + a1 + a2
      && s2[ContributionKey(p, c)] == ContributionV(Contribution(p, c, a2))
      && s2.Keys == s.Keys + {ContributionKey(p, c)}
  {
  }

  /**
   * Any run of contributions to an existing project: the total grows by the sum
   * of the amounts, nothing else in the project record changes, and the key of
   * the last contributor holds the last contribution.
   */
  lemma {:induction false} ContributionsAccumulate(s: WorldState, p: string, gifts: seq<Gift>)
    requires p in s && ValidKey(p)
    ensures var s' := Run(s, ContributeTxs(p, gifts));
      && p in s'
      && ReadProject(s', p).currentAmount == ReadProject(s, p).currentAmount + Total(gifts)
      && ReadProject(s', p) == ReadProject(s, p).(currentAmount := ReadProject(s', p).currentAmount)
      && (gifts != [] ==>
            var last := gifts[|gifts| - 1];
            && ContributionKey(p, last.contributorId) in s'
            && s'[ContributionKey(p, last.contributorId)]
               == ContributionV(Contribution(p, last.contributorId, last.amount)))
    decreases |gifts|
  {
    if gifts != [] {
      var tx := ContributeTx(p, gifts[0].contributorId, gifts[0].amount);
      assert ContributeTxs(p, gifts) == [tx] + ContributeTxs(p, gifts[1..]);
      var s1 := Submit(s, tx).state;
      assert s1 == Contribute(s, p, gifts[0].contributorId, gifts[0].amount).value;
      assert Run(s, ContributeTxs(p, gifts)) == Run(s1, ContributeTxs(p, gifts[1..]));
      ContributionsAccumulate(s1, p, gifts[1..]);
      if |gifts| == 1 {
        assert gifts[1..] == [];
      } else {
        assert gifts[1..][|gifts[1..]| - 1] == gifts[|gifts| - 1];
      }
    }
  }

  /** A closed project still accepts contributions, and stays closed. */
  lemma ContributeIgnoresClosure(s: WorldState, p: string, c: string, amount: real)
    requires p in s && ValidKey(p) && ReadProject(s, p).isClosed
    ensures Contribute(s, p, c, amount).Ok?
    ensures ReadProject(Contribute(s, p, c, amount).value, p).isClosed
  {
  }

  /** After a successful DistributeRewards the same call fails because the project is closed. */
  lemma DistributeRewardsTwiceFails(s: WorldState, p: string)
    requires DistributeRewards(s, p).Ok?
    ensures DistributeRewards(DistributeRewards(s, p).value, p) == Err(AlreadyClosed)
  {
  }

  /**
   * The goal check runs before the closed check: a closed project whose total
   * fell below its goal through a negative contribution reports "goal amount
   * not reached".
   */
  lemma ClosedUnderfundedReportsGoal(s: WorldState, p: string, c: string, amount: real)
    requires DistributeRewards(s, p).Ok?
    requires ReadProject(s, p).currentAmount + amount < ReadProject(s, p).goalAmount
    ensures var closed := DistributeRewards(s, p).value;
      && Contribute(closed, p, c, amount).Ok?
      && DistributeRewards(Contribute(closed, p, c, amount).value, p) == Err(GoalNotReached)
  {
  }

  /** A complete campaign: created, funded to its goal, closed; a later gift still lands. */
  lemma FundedLifecycle(s: WorldState, p: string, title: string, description: string,
                        shortDescription: string, goal: real, backer: string, late: string, extra: real)
    requires ValidKey(p) && CompositeAttributeOk(p) && extra >= 0.0
    ensures var s1 := Run(s, [CreateProjectTx(p, title, description, shortDescription, goal),
                              ContributeTx(p, backer, goal),
                              DistributeRewardsTx(p)]);
      && p in s1 && ReadProject(s1, p).isClosed
      && ReadProject(s1, p).currentAmount == goal
      && var s2 := Run(s1, [ContributeTx(p, late, extra)]);
      && p in s2
      && ReadProject(s2, p).currentAmount == goal + extra
      && ReadProject(s2, p).isClosed
      && Submit(s2, DistributeRewardsTx(p)) == Committed(s2, Err(AlreadyClosed))
  {
    assert CheckKey(p) == None && CheckKey(ContributionKey(p, backer)) == None;
    assert CheckKey(ContributionKey(p, late)) == None;
    var t0, t1, t2 := CreateProjectTx(p, title, description, shortDescription, goal),
                      ContributeTx(p, backer, goal), DistributeRewardsTx(p);
    var s0 := CreateProject(s, p, title, description, shortDescription, goal).value;
    var sa := Contribute(s0, p, backer, goal).value;
    var sb := DistributeRewards(sa, p).value;
    assert [t0, t1, t2][1..] == [t1, t2] && [t1, t2][1..] == [t2];
    assert Run(sa, [t2]) == sb;
    assert Run(s0, [t1, t2]) == Run(sa, [t2]);
    assert Run(s, [t0, t1, t2]) == Run(s0, [t1, t2]);
    var s2 := Contribute(sb, p, late, extra).value;
    assert Run(sb, [ContributeTx(p, late, extra)]) == s2;
  }

  /** Projects and users share one namespace: RegisterUser replaces a project stored under its id. */
  lemma RegisterUserReplacesProject(s: WorldState, id: string, title: string, description: string,
                                    shortDescription: string, goal: real, role: string)
    requires ValidKey(id)
    ensures var s1 := CreateProject(s, id, title, description, shortDescription, goal).value;
      var s2 := RegisterUser(s1, id, role).value;
      && s2[id] == UserV(User(id, role))
      && s2.Keys == s.Keys + {id}
  {
  }

  /**
   * A user document read back as a project has every field at zero, so
   * Contribute and DistributeRewards both succeed on a user's key and
   * overwrite the user with a project record.
   */
  lemma UserKeyReadsAsEmptyProject(s: WorldState, id: string, c: string, amount: real)
    requires id in s && ValidKey(id) && CompositeAttributeOk(id) && s[id].UserV?
    ensures Contribute(s, id, c, amount).Ok?
    ensures ReadProject(Contribute(s, id, c, amount).value, id) == EmptyProject.(currentAmount := amount)
    ensures DistributeRewards(s, id).Ok?
    ensures DistributeRewards(s, id).value[id] == ProjectV(EmptyProject.(isClosed := true))
  {
  }

  /** A contribution key can coincide with another project's id, which it then overwrites. */
  lemma ContributionKeyCollision(s: WorldState, title: string, description: string,
                                 shortDescription: string, goal: real, amount: real)
    requires "a" in s
    ensures var s1 := CreateProject(s, "a_b", title, description, shortDescription, goal).value;
      && Contribute(s1, "a", "b", amount).Ok?
      && Contribute(s1, "a", "b", amount).value["a_b"] == ContributionV(Contribution("a", "b", amount))
  {
    assert ContributionKey("a", "b") == "a_b";
  }

  /**
   * A key the state database refuses: CreateProject and RegisterUser fail at
   * once and commit nothing, and so does every transaction on such a key that
   * reaches its first write.
   */
  lemma InvalidKeyRefused(s: WorldState, id: string, title: string, description: string,
                          shortDescription: string, goal: real, c: string, amount: real, role: string)
    requires !ValidKey(id)
    ensures Submit(s, CreateProjectTx(id, title, description, shortDescription, goal))
            == Committed(s, Err(PutRefused(CheckKey(id).value)))
    ensures Submit(s, RegisterUserTx(id, role)) == Committed(s, Err(PutRefused(CheckKey(id).value)))
    ensures Submit(s, ContributeTx(id, c, amount)).state == s
    ensures Submit(s, ContributeTx(id, c, amount)).response.Err?
    ensures Submit(s, DistributeRewardsTx(id)).state == s
    ensures Submit(s, DistributeRewardsTx(id)).response.Err?
  {
  }

  /** Starting from a world state whose keys are all valid, no run of transactions stores an invalid key. */
  lemma {:induction false} InvalidKeyNeverStored(s: WorldState, txs: seq<Tx>)
    requires forall k :: k in s ==> ValidKey(k)
    ensures forall k :: k in Run(s, txs) ==> ValidKey(k)
    decreases |txs|
  {
    if txs != [] {
      var c := Submit(s, txs[0]);
      assert forall k :: k in c.state ==> ValidKey(k);
      InvalidKeyNeverStored(c.state, txs[1..]);
    }
  }

  /** Whatever is stored under `p`, if anything, reads back as an open project. */
  predicate OpenAt(s: WorldState, p: string) {
    p in s ==> !ReadProject(s, p).isClosed
  }

  /**
   * One transaction never closes a project whose id the composite-key scan
   * refuses: DistributeRewards on it fails, and every other write leaves it open.
   */
  lemma UnscannableStaysOpenStep(s: WorldState, tx: Tx, p: string)
    requires !CompositeAttributeOk(p) && OpenAt(s, p)
    ensures OpenAt(Submit(s, tx).state, p)
  {
  }

  /** No run of transactions ever closes a project whose id the composite-key scan refuses. */
  lemma {:induction false} UnscannableProjectNeverCloses(s: WorldState, txs: seq<Tx>, p: string)
    requires !CompositeAttributeOk(p) && OpenAt(s, p)
    ensures OpenAt(Run(s, txs), p)
    decreases |txs|
  {
    if txs != [] {
      UnscannableStaysOpenStep(s, txs[0], p);
      UnscannableProjectNeverCloses(Submit(s, txs[0]).state, txs[1..], p);
    }
  }
}

=== FILE: enrollment.dfy ===
/**
 * The identity-enrollment functions of api-2.0/app/helper.js: enrollAdmin
 * (lines 232-269) and getRegisteredUser (lines 45-109).
 *
 * The wallet is the content of the organisation's wallet directory, a map
 * from label to identity. The certificate authority's answers are inputs:
 * each call is made at most once per request, so a `CaScript` fixes what the
 * CA replies to each. The CA calls, wallet writes and database access the
 * code makes are recorded, in order, as `Effect`s. Wallet reads, the
 * connection-profile read and opening the wallet directory are not recorded.
 */
module Enrollment {
  import opened Results
  import opened OrgConfig

  /** An X.509 identity as the wallet stores it. */
  datatype Identity = Identity(certificate: string, privateKey: string, mspId: string, idType: string)

  type Wallet = map<string, Identity>

  const AdminLabel: string := "admin"
  const AdminSecret: string := "adminpw"

  /** A certificate-authority reply: the result, or the message of the error it throws. */
  datatype CaAnswer<T> = Granted(value: T) | Refused(message: string)

  /** What `ca.enroll` returns: a certificate and its private key. */
  datatype Credential = Credential(certificate: string, privateKey: string)

  /** The CA's reply to the admin enroll, to the user's register, and to the user's enroll. */
  datatype CaScript = CaScript(adminEnroll: CaAnswer<Credential>,
                               register: CaAnswer<string>,
                               userEnroll: CaAnswer<Credential>)

  /** A CA call, a wallet write or the database access. */
  datatype Effect =
    | AdminEnroll(enrollmentId: string, secret: string)  // the bootstrap's enroll of the admin
    | Register(affiliation: string, enrollmentId: string, role: string)
    | Enroll(enrollmentId: string, secret: string)
    | WalletPut(name: string)
    | DbQuery(username: string)  // connect, then SELECT password FROM users WHERE username = ?

  /** The bootstrap's enroll call: the admin's enrollment id and secret. */
  const AdminEnrollment: Effect := AdminEnroll(AdminLabel, AdminSecret)

  /** The identity record built from an enrollment for an organisation. */
  function X509Identity(org: string, c: Credential): Identity {
    Identity(c.certificate, c.privateKey, org + "MSP", "X.509")
  }

  /** The wallet after enrollAdmin, and the CA calls and wallet writes it made. */
  datatype Bootstrap = Bootstrap(wallet: Wallet, effects: seq<Effect>)

  /** The CA entry enrollAdmin builds its client from, when reading it does not throw. */
  predicate UsableCa(org: string, ccp: ConnectionProfile) {
    CaInfo(org, ccp).Found? && CaInfo(org, ccp).value.tlsCACerts.Some?
  }

  /**
   * enrollAdmin: enrolls 'admin' and stores it, unless the wallet already has
   * it. Everything runs inside one try block whose catch only logs, so a
   * missing CA entry, missing TLS material or a CA refusal all end silently.
   */
  function EnrollAdmin(org: string, ccp: ConnectionProfile, wallet: Wallet, answer: CaAnswer<Credential>)
    : (r: Bootstrap)
    ensures AdminLabel in wallet ==> r == Bootstrap(wallet, [])
    ensures answer.Refused? ==> r.wallet == wallet
    ensures r.wallet == wallet || r.wallet == wallet[AdminLabel := X509Identity(org, answer.value)]
    ensures AdminLabel in r.wallet <==> AdminLabel in wallet || (UsableCa(org, ccp) && answer.Granted?)
    ensures AdminEnrollment in r.effects <==> AdminLabel !in wallet && UsableCa(org, ccp)
    ensures forall e :: e in r.effects ==> e == AdminEnrollment || e == WalletPut(AdminLabel)
    // The enroll comes before the put, and a refusal throws before any write.
    ensures r.effects == if AdminLabel in wallet || !UsableCa(org, ccp) then []
                         else if answer.Refused? then [AdminEnrollment]
                         else [AdminEnrollment, WalletPut(AdminLabel)]
  {
    match CaInfo(org, ccp)
    case Null => Bootstrap(wallet, [])
    case Undefined => Bootstrap(wallet, [])
    case Found(entry) =>
      if entry.tlsCACerts.None? then Bootstrap(wallet, [])
      else if AdminLabel in wallet then Bootstrap(wallet, [])
      else match answer
        case Refused(_) => Bootstrap(wallet, [AdminEnrollment])
        case Granted(c) => Bootstrap(wallet[AdminLabel := X509Identity(org, c)], [AdminEnrollment, WalletPut(AdminLabel)])
  }

  /** What getRegisteredUser's promise settles to. */
  datatype Reply =
    | Enrolled(message: string)        // {success: true, message: username + ' enrolled Successfully'}
    | RegisterFailed(message: string)  // the register error's message, as a bare string
    | Rejected(reason: Rejection)      // the promise is rejected

  /** The reply, the wallet afterwards, and the CA calls and wallet writes made. */
  datatype Session = Session(reply: Reply, wallet: Wallet, effects: seq<Effect>)

  function EnrolledMessage(username: string): string {
    username + " enrolled Successfully"
  }

  /**
   * getRegisteredUser: looks the user up, bootstraps the admin when absent,
   * registers and enrolls the user with the CA, and stores the identity.
   * Only the register call is inside a try block.
   */
  function GetRegisteredUser(username: string, userOrg: string, ccp: ConnectionProfile,
                             wallet: Wallet, ca: CaScript): (r: Session)
    // getCCP and getCaUrl run before the wallet is opened.
    ensures !Known(userOrg) ==> r == Session(Rejected(NoConnectionProfile), wallet, [])
    ensures Known(userOrg) && CaInfo(userOrg, ccp).Undefined? ==> r == Session(Rejected(NoCaEntry), wallet, [])
    // An identity already in the wallet ends the request without touching the CA.
    ensures CaInfo(userOrg, ccp).Found? && username in wallet ==>
      r == Session(Enrolled(EnrolledMessage(username)), wallet, [])
    // A new user: enrollAdmin runs (a no-op when the admin is stored); without an admin
    // afterwards the request throws, otherwise the CA registers and then enrolls the user.
    ensures CaInfo(userOrg, ccp).Found? && username !in wallet ==>
      var boot := EnrollAdmin(userOrg, ccp, wallet, ca.adminEnroll);
      var reg := Register(Affiliation(userOrg), username, "client");
      && (AdminLabel !in boot.wallet ==> r == Session(Rejected(NoAdminIdentity), wallet, boot.effects))
      && (AdminLabel in boot.wallet && ca.register.Refused? ==>
            r == Session(RegisterFailed(ca.register.message), boot.wallet, boot.effects + [reg]))
      && (AdminLabel in boot.wallet && ca.register.Granted? && ca.userEnroll.Refused? ==>
            r == Session(Rejected(CaFailure(ca.userEnroll.message)), boot.wallet,
                         boot.effects + [reg, Enroll(username, ca.register.value)]))
      && (AdminLabel in boot.wallet && ca.register.Granted? && ca.userEnroll.Granted? ==>
            r == Session(Enrolled(EnrolledMessage(username)),
                         boot.wallet[username := X509Identity(userOrg, ca.userEnroll.value)],
                         boot.effects + [reg, Enroll(username, ca.register.value), WalletPut(username)]))
  {
    if !Known(userOrg) then
      Session(Rejected(NoConnectionProfile), wallet, [])
    else if CaUrl(userOrg, ccp).Err? then
      Session(Rejected(NoCaEntry), wallet, [])
    else if username in wallet then
      Session(Enrolled(EnrolledMessage(username)), wallet, [])
    else
      var boot := if AdminLabel in wallet then Bootstrap(wallet, [])
                  else EnrollAdmin(userOrg, ccp, wallet, ca.adminEnroll);
      if AdminLabel !in boot.wallet then
        Session(Rejected(NoAdminIdentity), boot.wallet, boot.effects)
      else
        var registered := boot.effects + [Register(Affiliation(userOrg), username, "client")];
        match ca.register
        case Refused(msg) => Session(RegisterFailed(msg), boot.wallet, registered)
        case Granted(secret) =>
          var enrolled := registered + [Enroll(username, secret)];
          match ca.userEnroll
          case Refused(msg) => Session(Rejected(CaFailure(msg)), boot.wallet, enrolled)
          case Granted(c) =>
            Session(Enrolled(EnrolledMessage(username)),
                    boot.wallet[username := X509Identity(userOrg, c)],
                    enrolled + [WalletPut(username)])
  }

  /** Stored identities are never replaced; only the user and the admin can be added. */
  lemma StoredIdentitiesKept(username: string, userOrg: string, ccp: ConnectionProfile, wallet: Wallet, ca: CaScript)
    ensures var r := GetRegisteredUser(username, userOrg, ccp, wallet, ca);
      && (forall k :: k in wallet ==> k in r.wallet && r.wallet[k] == wallet[k])
      && r.wallet.Keys <= wallet.Keys + {username, AdminLabel}
      && (AdminEnrollment in r.effects ==> AdminLabel !in wallet && username !in wallet)
  {
    if CaInfo(userOrg, ccp).Found? && username !in wallet {
      var boot := EnrollAdmin(userOrg, ccp, wallet, ca.adminEnroll);
      assert forall k :: k in wallet ==> k in boot.wallet && boot.wallet[k] == wallet[k];
      assert boot.wallet.Keys <= wallet.Keys + {AdminLabel};
    }
  }

  /**
   * A register failure carries the CA's bare message and stores no user;
   * without an admin identity nothing but the bootstrap is attempted.
   */
  lemma FailuresStoreNoUser(username: string, userOrg: string, ccp: ConnectionProfile, wallet: Wallet, ca: CaScript)
    ensures var r := GetRegisteredUser(username, userOrg, ccp, wallet, ca);
      && (r.reply.RegisterFailed? <==>
            CaInfo(userOrg, ccp).Found? && username !in wallet && AdminLabel in r.wallet && ca.register.Refused?)
      && (r.reply.RegisterFailed? ==>
            r.reply.message == ca.register.message && r.wallet.Keys <= wallet.Keys + {AdminLabel})
      && (r.reply == Rejected(NoAdminIdentity) ==>
            AdminLabel !in r.wallet && forall e :: e in r.effects ==> e == AdminEnrollment)
  {
  }

  /** A fresh enrollment stores the user, with the organisation's MSP id and type X.509, as its last call. */
  lemma FreshEnrollmentStoresUser(username: string, userOrg: string, ccp: ConnectionProfile, wallet: Wallet, ca: CaScript)
    ensures var r := GetRegisteredUser(username, userOrg, ccp, wallet, ca);
      && (r.reply.Enrolled? ==> r.reply.message == EnrolledMessage(username) && username in r.wallet)
      && (r.reply.Enrolled? && username !in wallet ==>
            && ca.register.Granted? && ca.userEnroll.Granted?
            && r.wallet[username] == X509Identity(userOrg, ca.userEnroll.value)
            && r.wallet[username].mspId == userOrg + "MSP" && r.wallet[username].idType == "X.509"
            && r.wallet.Keys == wallet.Keys + {username, AdminLabel}
            && Register(Affiliation(userOrg), username, "client") in r.effects
            && r.effects[|r.effects| - 1] == WalletPut(username))
  {
  }

  /** With the admin already stored, no bootstrap call is made: the CA is asked to register and then to enroll the user. */
  lemma EnrollWithStoredAdmin(username: string, userOrg: string, ccp: ConnectionProfile, wallet: Wallet, ca: CaScript)
    requires CaInfo(userOrg, ccp).Found? && username !in wallet && AdminLabel in wallet
    ensures var r := GetRegisteredUser(username, userOrg, ccp, wallet, ca);
      var reg := Register(Affiliation(userOrg), username, "client");
      && (ca.register.Refused? ==> r == Session(RegisterFailed(ca.register.message), wallet, [reg]))
      && (ca.register.Granted? && ca.userEnroll.Refused? ==>
            r == Session(Rejected(CaFailure(ca.userEnroll.message)), wallet,
                         [reg, Enroll(username, ca.register.value)]))
      && (ca.register.Granted? && ca.userEnroll.Granted? ==>
            r == Session(Enrolled(EnrolledMessage(username)),
                         wallet[username := X509Identity(userOrg, ca.userEnroll.value)],
                         [reg, Enroll(username, ca.register.value), WalletPut(username)]))
  {
    assert EnrollAdmin(userOrg, ccp, wallet, ca.adminEnroll) == Bootstrap(wallet, []);
  }

  /** Enrolling a user a second time is a no-op that repeats the first success, whatever the CA would say. */
  lemma EnrollmentIdempotent(username: string, userOrg: string, ccp: ConnectionProfile,
                             wallet: Wallet, ca: CaScript, ca': CaScript)
    requires GetRegisteredUser(username, userOrg, ccp, wallet, ca).reply.Enrolled?
    ensures var first := GetRegisteredUser(username, userOrg, ccp, wallet, ca);
      GetRegisteredUser(username, userOrg, ccp, first.wallet, ca') == Session(first.reply, first.wallet, [])
  {
  }

  /** The MSP id written into a user identity is the one getOrgMSP reports for the organisation. */
  lemma EnrolledMspMatchesOrgMSP(username: string, userOrg: string, ccp: ConnectionProfile,
                                 wallet: Wallet, ca: CaScript)
    requires GetRegisteredUser(username, userOrg, ccp, wallet, ca).reply.Enrolled?
    ensures OrgMSP(userOrg) == Some(GetRegisteredUser(username, userOrg, ccp, wallet, ca).wallet[username].mspId)
      || username in wallet
  {
  }

  /**
   * A first enrollment in a wallet without the admin, the CA granting every
   * request: the admin is enrolled and stored, then the user is registered,
   * enrolled and stored, in that order.
   */
  lemma FirstEnrollmentSequence(username: string, userOrg: string, ccp: ConnectionProfile, wallet: Wallet,
                                admin: Credential, secret: string, user: Credential)
    requires UsableCa(userOrg, ccp)
    requires username !in wallet && AdminLabel !in wallet && username != AdminLabel
    ensures GetRegisteredUser(username, userOrg, ccp, wallet, CaScript(Granted(admin), Granted(secret), Granted(user)))
      == Session(Enrolled(EnrolledMessage(username)),
                 wallet[AdminLabel := X509Identity(userOrg, admin)][username := X509Identity(userOrg, user)],
                 [AdminEnrollment, WalletPut(AdminLabel),
                  Register(Affiliation(userOrg), username, "client"),
                  Enroll(username, secret), WalletPut(username)])
  {
    var boot := EnrollAdmin(userOrg, ccp, wallet, Granted(admin));
    assert boot == Bootstrap(wallet[AdminLabel := X509Identity(userOrg, admin)], [AdminEnrollment, WalletPut(AdminLabel)]);
    assert [AdminEnrollment, WalletPut(AdminLabel)] + [Register(Affiliation(userOrg), username, "client")]
      + [Enroll(username, secret)] + [WalletPut(username)]
      == [AdminEnrollment, WalletPut(AdminLabel), Register(Affiliation(userOrg), username, "client"),
          Enroll(username, secret), WalletPut(username)];
  }

  /**
   * A CA failure while bootstrapping the admin is swallowed by enrollAdmin;
   * getRegisteredUser then throws reading the missing admin identity, and the
   * user is never registered.
   */
  lemma SwallowedAdminFailureRejects(username: string, userOrg: string, ccp: ConnectionProfile,
                                     wallet: Wallet, ca: CaScript)
    requires CaInfo(userOrg, ccp).Found? && username !in wallet && AdminLabel !in wallet
    requires ca.adminEnroll.Refused?
    ensures GetRegisteredUser(username, userOrg, ccp, wallet, ca).reply == Rejected(NoAdminIdentity)
    ensures GetRegisteredUser(username, userOrg, ccp, wallet, ca).wallet == wallet
  {
  }
}

=== FILE: ledger.dfy ===
/**
 * The records the crowdfunding chaincode keeps in its world state, and the way
 * `json.Unmarshal` reads one record type out of a document written as another.
 * (artifacts/src/github.com/crowd_cc/go/test.go, lines 17-43)
 */
module Ledger {

  datatype Project = Project(
    projectId: string,
    title: string,
    description: string,
    shortDescription: string,
    goalAmount: real,
    currentAmount: real,
    isClosed: bool)

  datatype Contribution = Contribution(projectId: string, contributorId: string, amount: real)

  datatype User = User(userId: string, role: string)

  /** A stored document. Marshalling a record and unmarshalling it back into the
      same record type is the identity, so a document is just the record it holds. */
  datatype Value =
    | ProjectV(project: Project)
    | ContributionV(contribution: Contribution)
    | UserV(user: User)

  /** The chaincode's single key-value namespace: projects, contributions and users share it. */
  type WorldState = map<string, Value>

  /**
   * A key the world state can hold: the chaincode stub refuses the empty key,
   * and the CouchDB state database refuses a key that begins with "_".
   */
  predicate ValidKey(k: string) {
    k != "" && k[0] != '_'
  }

  /** A project with every field at Go's zero value. */
  const EmptyProject: Project := Project("", "", "", "", 0.0, 0.0, false)

  /** `json.Unmarshal(doc, &project)`: fields named alike are copied, unknown ones
      are ignored and missing ones stay zero, so any stored document decodes. */
  function AsProject(v: Value): (p: Project)
    ensures v.ProjectV? ==> p == v.project
    ensures v.ContributionV? ==> p.projectId == v.contribution.projectId && p.(projectId := "") == EmptyProject
    ensures v.UserV? ==> p == EmptyProject
  {
    match v
    case ProjectV(p) => p
    case ContributionV(c) => EmptyProject.(projectId := c.projectId)
    case UserV(_) => EmptyProject
  }

  /** `json.Unmarshal(doc, &contribution)`, with the same lenient field matching. */
  function AsContribution(v: Value): (c: Contribution)
    ensures v.ContributionV? ==> c == v.contribution
    ensures v.ProjectV? ==> c == Contribution(v.project.projectId, "", 0.0)
    ensures v.UserV? ==> c == Contribution("", "", 0.0)
    ensures AsProject(v).projectId == c.projectId
  {
    match v
    case ProjectV(p) => Contribution(p.projectId, "", 0.0)
    case ContributionV(c) => c
    case UserV(_) => Contribution("", "", 0.0)
  }

  /** The keys of the world state that hold exactly the contribution record `c`. */
  ghost function StoredKeys(s: WorldState, c: Contribution): set<string> {
    set k | k in s && s[k] == ContributionV(c)
  }

  /** Some key of the world state holds exactly the contribution record `c`. */
  ghost predicate Stored(s: WorldState, c: Contribution) {
    exists k :: k in s && s[k] == ContributionV(c)
  }
}

=== FILE: login.dfy ===
/**
 * isUserRegistered (api-2.0/app/helper.js, lines 175-212): a login check
 * that needs both a wallet identity and a matching password row in the
 * `users` table. The database's answer, from connecting to it and running
 * the password query, is an input.
 */
module Login {
  import opened Results
  import opened OrgConfig
  import opened Enrollment

  /**
   * What the database yields: an error from `mysql.createConnection` or from
   * `SELECT password FROM users WHERE username = ?`, or the rows' passwords in order.
   */
  datatype DbAnswer = DbError(message: string) | Rows(passwords: seq<string>)

  /** The settled promise and the database access made, if any. */
  datatype Check = Check(answer: Result<bool, Rejection>, effects: seq<Effect>)

  /** The database agrees with the candidate: a first row exists and its password is exactly it. */
  predicate PasswordMatches(db: DbAnswer, password: string) {
    db.Rows? && |db.passwords| > 0 && db.passwords[0] == password
  }

  /**
   * isUserRegistered: the wallet is consulted first, and the database only when
   * the identity is there; a database error is caught and reads as false.
   */
  function IsUserRegistered(username: string, userOrg: string, wallet: Wallet, db: DbAnswer, password: string)
    : (r: Check)
    ensures !Known(userOrg) ==> r == Check(Err(NoWalletDirectory), [])
    ensures Known(userOrg) ==> r.answer.Ok?
    ensures r.answer == Ok(true) <==> Known(userOrg) && username in wallet && PasswordMatches(db, password)
    ensures username !in wallet ==> r.effects == []
    ensures Known(userOrg) && username in wallet ==> r.effects == [DbQuery(username)]
    ensures db.DbError? ==> r.answer != Ok(true)
  {
    if !Known(userOrg) then
      Check(Err(NoWalletDirectory), [])
    else if username !in wallet then
      Check(Ok(false), [])
    else
      match db
      case DbError(_) => Check(Ok(false), [DbQuery(username)])
      case Rows(passwords) =>
        Check(Ok(|passwords| > 0 && passwords[0] == password), [DbQuery(username)])
  }

  /** Without a wallet identity the answer is false whatever the database holds. */
  lemma NoIdentityIgnoresDatabase(username: string, userOrg: string, wallet: Wallet,
                                  db: DbAnswer, db': DbAnswer, password: string)
    requires Known(userOrg) && username !in wallet
    ensures IsUserRegistered(username, userOrg, wallet, db, password)
         == IsUserRegistered(username, userOrg, wallet, db', password)
         == Check(Ok(false), [])
  {
  }

  /**
   * The two identity systems reconcile one way: a user who passes the login
   * check has a wallet identity, so enrolling that user again is a no-op.
   */
  lemma LoginImpliesEnrolled(username: string, userOrg: string, wallet: Wallet, db: DbAnswer,
                             password: string, ccp: ConnectionProfile, ca: CaScript)
    requires IsUserRegistered(username, userOrg, wallet, db, password).answer == Ok(true)
    requires CaInfo(userOrg, ccp).Found?
    ensures GetRegisteredUser(username, userOrg, ccp, wallet, ca)
         == Session(Enrolled(EnrolledMessage(username)), wallet, [])
  {
  }

  /** A successful enrollment is not enough to log in: the password row is still required. */
  lemma EnrollmentAloneDoesNotLogIn(username: string, userOrg: string, ccp: ConnectionProfile,
                                    wallet: Wallet, ca: CaScript, password: string)
    requires GetRegisteredUser(username, userOrg, ccp, wallet, ca).reply.Enrolled?
    ensures var w := GetRegisteredUser(username, userOrg, ccp, wallet, ca).wallet;
      && IsUserRegistered(username, userOrg, w, Rows([]), password).answer == Ok(false)
      && IsUserRegistered(username, userOrg, w, Rows([password]), password).answer == Ok(true)
  {
  }
}

=== FILE: org_config.dfy ===
/**
 * The organisation lookups of api-2.0/app/helper.js: each is a chain of
 * `org == 'OrgN' ? x = ... : null` tests over the three known organisations.
 */
module OrgConfig {
  import opened Results

  datatype Org = Org1 | Org2 | Org3

  /** The organisation a request names, when it is one of the three the chains test for. */
  function ParseOrg(org: string): Option<Org> {
    if org == "Org1" then Some(Org1)
    else if org == "Org2" then Some(Org2)
    else if org == "Org3" then Some(Org3)
    else None
  }

  function Name(o: Org): string {
    match o
    case Org1 => "Org1"
    case Org2 => "Org2"
    case Org3 => "Org3"
  }

  /** The organisation's name in lower case, as it appears in paths and CA host names. */
  function LowerName(o: Org): string {
    match o
    case Org1 => "org1"
    case Org2 => "org2"
    case Org3 => "org3"
  }

  predicate Known(org: string) {
    ParseOrg(org).Some?
  }

  /** ParseOrg recognises exactly the three organisation names. */
  lemma ParseOrgNames(org: string, o: Org)
    ensures ParseOrg(org) == Some(o) <==> org == Name(o)
  {
  }

  /** getWalletPath: `<cwd>/orgN-wallet` for a known organisation, null otherwise (the `cwd` prefix is left out). */
  function WalletPath(org: string): (r: Option<string>)
    ensures r.Some? <==> org == "Org1" || org == "Org2" || org == "Org3"
    ensures r.Some? ==> r.value == "org" + org[3..] + "-wallet"
  {
    match ParseOrg(org)
    case Some(o) => Some(LowerName(o) + "-wallet")
    case None => None
  }

  /** getOrgMSP: `OrgNMSP` for a known organisation, null otherwise. */
  function OrgMSP(org: string): (r: Option<string>)
    ensures r.Some? <==> org == "Org1" || org == "Org2" || org == "Org3"
    ensures r.Some? ==> r.value == org + "MSP"
  {
    match ParseOrg(org)
    case Some(Org1) => Some("Org1MSP")
    case Some(Org2) => Some("Org2MSP")
    case Some(Org3) => Some("Org3MSP")
    case None => None
  }

  /**
   * getAffiliation: only two affiliations are configured at the CA, so every
   * organisation other than Org1, known or not, is given Org2's.
   */
  function Affiliation(org: string): (r: string)
    ensures r == "org1.department1" || r == "org2.department1"
    ensures r == "org1.department1" <==> org == "Org1"
  {
    if org == "Org1" then "org1.department1" else "org2.department1"
  }

  /** Distinct known organisations get distinct wallets and MSP ids. */
  lemma OrgLookupsInjective(a: string, b: string)
    requires Known(a) && Known(b) && a != b
    ensures WalletPath(a) != WalletPath(b)
    ensures OrgMSP(a) != OrgMSP(b)
  {
    assert a[3] != b[3];
    assert WalletPath(a).value[3] == a[3] && WalletPath(b).value[3] == b[3];
  }

  /** Org3 and every unknown organisation share Org2's affiliation. */
  lemma AffiliationFallsBackToOrg2(org: string)
    requires org != "Org1"
    ensures Affiliation(org) == Affiliation("Org2")
  {
  }

  /** A certificate-authority entry of a connection profile. */
  datatype CaEntry = CaEntry(url: string, tlsCACerts: Option<string>, caName: string)

  /** The `certificateAuthorities` table of an organisation's connection profile. */
  type ConnectionProfile = map<string, CaEntry>

  /** The profile key of an organisation's CA, `ca.orgN.example.com`. */
  function CaKey(org: string): (r: Option<string>)
    ensures r.Some? <==> Known(org)
    ensures r.Some? ==> r.value == "ca.org" + org[3..] + ".example.com"
  {
    match ParseOrg(org)
    case Some(o) => Some("ca." + LowerName(o) + ".example.com")
    case None => None
  }

  /** What a JavaScript property read yields: a value, `null`, or `undefined`. */
  datatype Lookup<T> = Found(value: T) | Null | Undefined

  /** Why a helper's promise is rejected instead of resolving. */
  datatype Rejection =
    | NoConnectionProfile    // getCCP reads a file at a null path (unknown organisation)
    | NoCaEntry              // `.url` of an undefined certificate-authority entry
    | NoWalletDirectory      // a file-system wallet opened at a null path
    | NoAdminIdentity        // `.type` of an undefined admin identity
    | CaFailure(message: string)  // a certificate-authority error nothing catches

  /**
   * getCaInfo: the organisation's CA entry; null for an unknown organisation,
   * undefined when the profile has no entry under the organisation's CA key.
   */
  function CaInfo(org: string, ccp: ConnectionProfile): (r: Lookup<CaEntry>)
    ensures r.Null? <==> !Known(org)
    ensures r.Found? <==> Known(org) && CaKey(org).value in ccp
    ensures r.Found? ==> r.value == ccp[CaKey(org).value]
  {
    match CaKey(org)
    case None => Null
    case Some(key) => if key in ccp then Found(ccp[key]) else Undefined
  }

  /**
   * getCaUrl: the same chain, reading `.url` of the entry. Reading it off an
   * undefined entry throws.
   */
  function CaUrl(org: string, ccp: ConnectionProfile): (r: Result<Option<string>, Rejection>)
    ensures r == Ok(None) <==> !Known(org)
    ensures r.Err? ==> r.error == NoCaEntry
    ensures r.Err? <==> CaInfo(org, ccp).Undefined?
    ensures CaInfo(org, ccp).Found? ==> r == Ok(Some(CaInfo(org, ccp).value.url))
  {
    match CaKey(org)
    case None => Ok(None)
    case Some(key) => if key in ccp then Ok(Some(ccp[key].url)) else Err(NoCaEntry)
  }

  /** getCaUrl and getCaInfo make the same choice: the URL is the url of the entry getCaInfo returns. */
  lemma CaUrlAgreesWithCaInfo(org: string, ccp: ConnectionProfile)
    ensures CaUrl(org, ccp).Ok? && CaUrl(org, ccp).value.Some? <==> CaInfo(org, ccp).Found?
  {
  }
}

=== FILE: queries.dfy ===
/**
 * The chaincode's two read transactions, GetContributionsByUser and
 * GetContributionsForCampaign (artifacts/src/github.com/crowd_cc/go/test.go,
 * lines 177-229). Both run a CouchDB selector over the whole namespace and
 * decode every matching document as a Contribution.
 *
 * The order in which the state database yields matching documents is not
 * specified; it is the parameter `order`, a listing of the stored keys.
 */
module Queries {
  import opened Results
  import opened Ledger

  /** The JSON fields the selectors name. */
  datatype Field = ProjectIdField | ContributorIdField

  /** A CouchDB selector: `{field: value}`, optionally also requiring another field to exist. */
  datatype Selector =
    | FieldEquals(field: Field, value: string)
    | FieldEqualsAndHas(field: Field, value: string, present: Field)

  /** The value of a JSON field in a stored document, if the document has that field. */
  function FieldOf(v: Value, f: Field): Option<string> {
    match (v, f)
    case (ProjectV(p), ProjectIdField) => Some(p.projectId)
    case (ContributionV(c), ProjectIdField) => Some(c.projectId)
    case (ContributionV(c), ContributorIdField) => Some(c.contributorId)
    case _ => None
  }

  predicate Matches(q: Selector, v: Value) {
    match q
    case FieldEquals(f, x) => FieldOf(v, f) == Some(x)
    case FieldEqualsAndHas(f, x, g) => FieldOf(v, f) == Some(x) && FieldOf(v, g).Some?
  }

  /** `{"selector":{"contributorId": userId}}` */
  function ByContributor(userId: string): Selector {
    FieldEquals(ContributorIdField, userId)
  }

  /** `{"selector":{"projectId": campaignId}}`, the selector the chaincode builds. */
  function ByCampaignAsWritten(campaignId: string): Selector {
    FieldEquals(ProjectIdField, campaignId)
  }

  /** `{"selector":{"projectId": campaignId, "contributorId": {"$exists": true}}}` */
  function ByCampaign(campaignId: string): Selector {
    FieldEqualsAndHas(ProjectIdField, campaignId, ContributorIdField)
  }

  /** The documents listed in `order` that `q` selects, decoded, in that order. */
  function Select(s: WorldState, order: seq<string>, q: Selector): seq<Contribution>
    decreases |order|
  {
    if order == [] then []
    else
      var k := order[|order| - 1];
      Select(s, order[..|order| - 1], q) + (if k in s && Matches(q, s[k]) then [AsContribution(s[k])] else [])
  }

  /** `order` lists every stored key exactly once. */
  ghost predicate Enumerates(order: seq<string>, s: WorldState) {
    && (forall k :: k in order <==> k in s)
    && (forall i, j :: 0 <= i < j < |order| ==> order[i] != order[j])
  }

  /** The stored keys whose documents `q` selects. */
  ghost function MatchingKeys(s: WorldState, q: Selector): set<string> {
    set k | k in s && Matches(q, s[k])
  }

  /** The listed keys whose documents `q` selects. */
  ghost function ListedMatches(s: WorldState, order: seq<string>, q: Selector): set<string> {
    set k | k in order && k in s && Matches(q, s[k])
  }

  lemma {:induction false} SelectAppend(s: WorldState, o1: seq<string>, o2: seq<string>, q: Selector)
    ensures Select(s, o1 + o2, q) == Select(s, o1, q) + Select(s, o2, q)
    decreases |o2|
  {
    if o2 != [] {
      var o2' := o2[..|o2| - 1];
      assert (o1 + o2)[..|o1 + o2| - 1] == o1 + o2';
      SelectAppend(s, o1, o2', q);
    } else {
      assert o1 + o2 == o1;
    }
  }

  /** A contribution is in the result exactly when some listed key holds a selected document decoding to it. */
  lemma {:induction false} SelectMembers(s: WorldState, order: seq<string>, q: Selector, c: Contribution)
    ensures c in Select(s, order, q) <==>
      exists k :: k in order && k in s && Matches(q, s[k]) && AsContribution(s[k]) == c
    decreases |order|
  {
    if order != [] {
      var init := order[..|order| - 1];
      SelectMembers(s, init, q, c);
      assert order == init + [order[|order| - 1]];
      assert forall k :: k in order <==> k in init || k == order[|order| - 1];
    }
  }

  /** Over a listing without repeats, every selected key contributes exactly one element. */
  lemma {:induction false} SelectCount(s: WorldState, order: seq<string>, q: Selector)
    requires forall i, j :: 0 <= i < j < |order| ==> order[i] != order[j]
    ensures |Select(s, order, q)| == |ListedMatches(s, order, q)|
    decreases |order|
  {
    if order == [] {
      assert forall k :: k !in ListedMatches(s, order, q);
    } else {
      var init := order[..|order| - 1];
      var last := order[|order| - 1];
      SelectCount(s, init, q);
      var before := ListedMatches(s, init, q);
      var after := ListedMatches(s, order, q);
      assert order == init + [last];
      assert last !in init;
      if last in s && Matches(q, s[last]) {
        assert after == before + {last};
      } else {
        assert after == before;
      }
    }
  }

  /** The listed keys whose documents `q` selects and that decode to `c`. */
  ghost function ListedHolding(s: WorldState, order: seq<string>, q: Selector, c: Contribution): set<string> {
    set k | k in order && k in s && Matches(q, s[k]) && AsContribution(s[k]) == c
  }

  /** The stored keys holding a project document for `projectId`. */
  ghost function ProjectKeys(s: WorldState, projectId: string): set<string> {
    set k | k in s && s[k].ProjectV? && s[k].project.projectId == projectId
  }

  /** Over a listing without repeats, each record occurs once per selected key that decodes to it. */
  lemma {:induction false} SelectMultiplicity(s: WorldState, order: seq<string>, q: Selector, c: Contribution)
    requires forall i, j :: 0 <= i < j < |order| ==> order[i] != order[j]
    ensures multiset(Select(s, order, q))[c] == |ListedHolding(s, order, q, c)|
    decreases |order|
  {
    if order == [] {
      assert forall k :: k !in ListedHolding(s, order, q, c);
    } else {
      var init, last := order[..|order| - 1], order[|order| - 1];
      assert order == init + [last];
      assert last !in init;
      SelectMultiplicity(s, init, q, c);
      SelectStep(s, init, last, q, c);
      HoldingStep(s, init, last, q, c);
    }
  }

  /** Appending one key adds one copy of `c` to the result exactly when that key's document is selected and decodes to `c`. */
  lemma SelectStep(s: WorldState, init: seq<string>, last: string, q: Selector, c: Contribution)
    ensures multiset(Select(s, init + [last], q))[c]
      == multiset(Select(s, init, q))[c]
         + (if last in s && Matches(q, s[last]) && AsContribution(s[last]) == c then 1 else 0)
  {
    assert (init + [last])[..|init + [last]| - 1] == init;
    var tail := if last in s && Matches(q, s[last]) then [AsContribution(s[last])] else [];
    assert Select(s, init + [last], q) == Select(s, init, q) + tail;
    assert multiset(Select(s, init + [last], q)) == multiset(Select(s, init, q)) + multiset(tail);
  }

  /** Appending a new key adds it to the holding keys exactly when its document is selected and decodes to `c`. */
  lemma HoldingStep(s: WorldState, init: seq<string>, last: string, q: Selector, c: Contribution)
    requires last !in init
    ensures |ListedHolding(s, init + [last], q, c)|
      == |ListedHolding(s, init, q, c)|
         + (if last in s && Matches(q, s[last]) && AsContribution(s[last]) == c then 1 else 0)
  {
    var before, after := ListedHolding(s, init, q, c), ListedHolding(s, init + [last], q, c);
    if last in s && Matches(q, s[last]) && AsContribution(s[last]) == c {
      assert after == before + {last};
    } else {
      assert after == before;
    }
  }

  /** Removing one occurrence of `k` from two listings with equal multisets keeps them equal. */
  lemma RemoveOccurrence(init: seq<string>, left: seq<string>, right: seq<string>, k: string)
    requires multiset(init + [k]) == multiset(left + [k] + right)
    ensures multiset(init) == multiset(left + right)
  {
    assert multiset(init + [k]) == multiset(init) + multiset{k};
    assert multiset(left + [k] + right) == multiset(left) + multiset{k} + multiset(right);
    assert multiset(left + right) == multiset(left) + multiset(right);
    assert multiset(init) == (multiset(init) + multiset{k}) - multiset{k};
    assert multiset(left + right) == (multiset(left) + multiset(right) + multiset{k}) - multiset{k};
  }

  /** Moving the middle part of a concatenation to the end keeps its multiset. */
  lemma MoveToEnd(a: seq<Contribution>, mid: seq<Contribution>, b: seq<Contribution>, c: seq<Contribution>)
    requires multiset(c) == multiset(a + b)
    ensures multiset(c + mid) == multiset(a + mid + b)
  {
  }

  /** The result, as a multiset, does not depend on the order the database yields keys in. */
  lemma {:induction false} SelectOrderIrrelevant(s: WorldState, o1: seq<string>, o2: seq<string>, q: Selector)
    requires multiset(o1) == multiset(o2)
    ensures multiset(Select(s, o1, q)) == multiset(Select(s, o2, q))
    decreases |o1|
  {
    if o1 == [] {
      assert o2 == [] by { assert |o2| == |multiset(o2)| == 0; }
    } else {
      var init, k := o1[..|o1| - 1], o1[|o1| - 1];
      assert o1 == init + [k];
      assert k in multiset(o2);
      var i :| 0 <= i < |o2| && o2[i] == k;
      var left, right := o2[..i], o2[i + 1..];
      assert o2 == left + [k] + right;
      RemoveOccurrence(init, left, right, k);
      SelectOrderIrrelevant(s, init, left + right, q);
      SelectAppend(s, init, [k], q);
      SelectAppend(s, left + [k], right, q);
      SelectAppend(s, left, [k], q);
      SelectAppend(s, left, right, q);
      MoveToEnd(Select(s, left, q), Select(s, [k], q), Select(s, right, q), Select(s, init, q));
    }
  }

  /** The loop both readers run: walk the result iterator, decode each document, append it. */
  method RunQuery(s: WorldState, order: seq<string>, q: Selector) returns (r: seq<Contribution>)
    ensures r == Select(s, order, q)
  {
    r := [];
    var i := 0;
    while i < |order|
      invariant 0 <= i <= |order|
      invariant r == Select(s, order[..i], q)
    {
      var k := order[i];
      assert order[..i + 1][..i] == order[..i];
      if k in s && Matches(q, s[k]) {
        r := r + [AsContribution(s[k])];
      }
      i := i + 1;
    }
    assert order[..|order|] == order;
  }

  /** GetContributionsByUser: exactly the stored contributions made by `userId`, each once. */
  method GetContributionsByUser(s: WorldState, order: seq<string>, userId: string) returns (r: seq<Contribution>)
    requires Enumerates(order, s)
    ensures forall c :: c in r <==> c.contributorId == userId && Stored(s, c)
    ensures |r| == |MatchingKeys(s, ByContributor(userId))|
    ensures forall c :: multiset(r)[c] == if c.contributorId == userId then |StoredKeys(s, c)| else 0
  {
    r := RunQuery(s, order, ByContributor(userId));
    QueryFacts(s, order, ByContributor(userId));
    forall c
      ensures c in r <==> c.contributorId == userId && Stored(s, c)
    {
      SelectMembers(s, order, ByContributor(userId), c);
    }
    forall c
      ensures multiset(r)[c] == if c.contributorId == userId then |StoredKeys(s, c)| else 0
    {
      ByContributorMultiplicity(s, order, userId, c);
    }
  }

  /**
   * GetContributionsForCampaign as the chaincode builds it: the selector also
   * matches the campaign's own Project document, which decodes as a
   * contribution with an empty contributor and a zero amount.
   */
  method GetContributionsForCampaignAsWritten(s: WorldState, order: seq<string>, campaignId: string)
    returns (r: seq<Contribution>)
    requires Enumerates(order, s)
    ensures forall c :: c in r <==>
      || (c.projectId == campaignId && Stored(s, c))
      || (c == Contribution(campaignId, "", 0.0)
          && exists k :: k in s && s[k].ProjectV? && s[k].project.projectId == campaignId)
    ensures |r| == |MatchingKeys(s, ByCampaignAsWritten(campaignId))|
    ensures forall c :: (multiset(r)[c]
      == (if c.projectId == campaignId then |StoredKeys(s, c)| else 0)
         + (if c == Contribution(campaignId, "", 0.0) then |ProjectKeys(s, campaignId)| else 0))
  {
    r := RunQuery(s, order, ByCampaignAsWritten(campaignId));
    QueryFacts(s, order, ByCampaignAsWritten(campaignId));
    forall c
      ensures c in r <==>
        || (c.projectId == campaignId && Stored(s, c))
        || (c == Contribution(campaignId, "", 0.0)
            && exists k :: k in s && s[k].ProjectV? && s[k].project.projectId == campaignId)
    {
      SelectMembers(s, order, ByCampaignAsWritten(campaignId), c);
    }
    forall c
      ensures multiset(r)[c] ==
        (if c.projectId == campaignId then |StoredKeys(s, c)| else 0)
          + (if c == Contribution(campaignId, "", 0.0) then |ProjectKeys(s, campaignId)| else 0)
    {
      ByCampaignAsWrittenMultiplicity(s, order, campaignId, c);
    }
  }

  /** GetContributionsForCampaign restricted to contribution documents. */
  method GetContributionsForCampaign(s: WorldState, order: seq<string>, campaignId: string)
    returns (r: seq<Contribution>)
    requires Enumerates(order, s)
    ensures forall c :: c in r <==> c.projectId == campaignId && Stored(s, c)
    ensures |r| == |MatchingKeys(s, ByCampaign(campaignId))|
    ensures forall c :: multiset(r)[c] == if c.projectId == campaignId then |StoredKeys(s, c)| else 0
  {
    r := RunQuery(s, order, ByCampaign(campaignId));
    QueryFacts(s, order, ByCampaign(campaignId));
    forall c
      ensures c in r <==> c.projectId == campaignId && Stored(s, c)
    {
      SelectMembers(s, order, ByCampaign(campaignId), c);
    }
    forall c
      ensures multiset(r)[c] == if c.projectId == campaignId then |StoredKeys(s, c)| else 0
    {
      ByCampaignMultiplicity(s, order, campaignId, c);
    }
  }

  /** Each stored contribution by `userId` appears once per key holding it; nothing else appears. */
  lemma ByContributorMultiplicity(s: WorldState, order: seq<string>, userId: string, c: Contribution)
    requires Enumerates(order, s)
    ensures multiset(Select(s, order, ByContributor(userId)))[c]
      == if c.contributorId == userId then |StoredKeys(s, c)| else 0
  {
    SelectMultiplicity(s, order, ByContributor(userId), c);
    var held := ListedHolding(s, order, ByContributor(userId), c);
    forall k | k in s
      ensures k in held <==> k in StoredKeys(s, c) && c.contributorId == userId
    {
      assert Matches(ByContributor(userId), s[k]) <==> s[k].ContributionV? && s[k].contribution.contributorId == userId;
    }
    if c.contributorId == userId {
      assert held == StoredKeys(s, c);
    } else {
      assert held == {};
    }
  }

  /**
   * The as-written campaign selector: each stored contribution to the campaign
   * once per key holding it, plus the phantom record once per project document.
   */
  lemma ByCampaignAsWrittenMultiplicity(s: WorldState, order: seq<string>, campaignId: string, c: Contribution)
    requires Enumerates(order, s)
    ensures multiset(Select(s, order, ByCampaignAsWritten(campaignId)))[c]
      == (if c.projectId == campaignId then |StoredKeys(s, c)| else 0)
         + (if c == Contribution(campaignId, "", 0.0) then |ProjectKeys(s, campaignId)| else 0)
  {
    SelectMultiplicity(s, order, ByCampaignAsWritten(campaignId), c);
    var held := ListedHolding(s, order, ByCampaignAsWritten(campaignId), c);
    var phantom := Contribution(campaignId, "", 0.0);
    forall k | k in s
      ensures k in held <==> (k in StoredKeys(s, c) && c.projectId == campaignId)
                             || (k in ProjectKeys(s, campaignId) && c == phantom)
    {
      AsWrittenSelects(s, campaignId, c, k);
    }
    if c == phantom {
      assert held == StoredKeys(s, c) + ProjectKeys(s, campaignId);
      assert StoredKeys(s, c) !! ProjectKeys(s, campaignId);
    } else if c.projectId == campaignId {
      assert held == StoredKeys(s, c);
    } else {
      assert held == {};
    }
  }

  /** The documents the as-written campaign selector picks out and decodes to `c`. */
  lemma AsWrittenSelects(s: WorldState, campaignId: string, c: Contribution, k: string)
    requires k in s
    ensures Matches(ByCampaignAsWritten(campaignId), s[k]) && AsContribution(s[k]) == c
      <==> || (s[k] == ContributionV(c) && c.projectId == campaignId)
           || (s[k].ProjectV? && s[k].project.projectId == campaignId && c == Contribution(campaignId, "", 0.0))
  {
  }

  /** The corrected campaign selector: each stored contribution to the campaign once per key holding it. */
  lemma ByCampaignMultiplicity(s: WorldState, order: seq<string>, campaignId: string, c: Contribution)
    requires Enumerates(order, s)
    ensures multiset(Select(s, order, ByCampaign(campaignId)))[c]
      == if c.projectId == campaignId then |StoredKeys(s, c)| else 0
  {
    SelectMultiplicity(s, order, ByCampaign(campaignId), c);
    var held := ListedHolding(s, order, ByCampaign(campaignId), c);
    forall k | k in s
      ensures k in held <==> k in StoredKeys(s, c) && c.projectId == campaignId
    {
      assert Matches(ByCampaign(campaignId), s[k]) <==> s[k].ContributionV? && s[k].contribution.projectId == campaignId;
    }
    if c.projectId == campaignId {
      assert held == StoredKeys(s, c);
    } else {
      assert held == {};
    }
  }

  /** Over a full listing of the state, the result has one element per matching key. */
  lemma QueryFacts(s: WorldState, order: seq<string>, q: Selector)
    requires Enumerates(order, s)
    ensures |Select(s, order, q)| == |MatchingKeys(s, q)|
  {
    SelectCount(s, order, q);
    assert ListedMatches(s, order, q) == MatchingKeys(s, q);
  }

  /**
   * The phantom record: a state holding one project and no contribution. The
   * as-written selector returns a record for it; the corrected one returns nothing.
   */
  lemma CampaignQueryReturnsProjectDocument(title: string, goal: real)
    ensures var s := map["p1" := ProjectV(Project("p1", title, "", "", goal, 0.0, false))];
      && Enumerates(["p1"], s)
      && !Stored(s, Contribution("p1", "", 0.0))
      && Select(s, ["p1"], ByCampaignAsWritten("p1")) == [Contribution("p1", "", 0.0)]
      && Select(s, ["p1"], ByCampaign("p1")) == []
  {
    var s := map["p1" := ProjectV(Project("p1", title, "", "", goal, 0.0, false))];
    assert ["p1"][..0] == [];
  }
}

=== FILE: results.dfy ===
/** Failure-carrying wrappers shared by every module of the model. */
module Results {

  /** A value that may be absent (JavaScript `null` / a Go nil read). */
  datatype Option<+T> = None | Some(value: T)

  /** The outcome of an operation that either succeeds with a value or fails with an error. */
  datatype Result<+T, +E> = Ok(value: T) | Err(error: E)
}
